=== FILE: README.md ===
# Instagram profile logger — a Dafny model of its decision logic

The logger visits a public Instagram profile once per run. It finds the
profile picture URL and the follower and following counts. It saves a copy
of the picture only when the picture changed since the previous run, and it
appends one row to `profile_log.csv`. Whether the picture changed is decided
by comparing a fingerprint of its URL with the fingerprint stored in
`last_pic_url.txt`. The fingerprint is the URL without its query string and
fragment, so that CDN cache-busters are not taken for a new picture.

This project models the pure logic of `main.py` and proves properties of it:

- `Fingerprint` — `normalize_url`: the prefix of the URL before the first
  `?` or `#`. It is idempotent, and appending a cache-buster does not change it.
- `CountText` — the inner helper `num` and the two meta-description
  regexes `([\d,.]+)\s+followers` and `([\d,.]+)\s+following`, written as
  character scans. Their contracts give the regex semantics: leftmost
  match, maximal run, and backtracking that cannot find more than the greedy scan.
- `Chain` and `ProfilePage` — the ordered fallback chains over a page
  reduced to the answers of its lookups:
  - five picture selectors, then `og:image`;
  - two header buttons, or else the meta description.
- `Baseline` — the baseline file as an `Option<string>`. `load_last_pic_url`
  strips what it reads. The change decision has three cases.
- `Ledger` — `log_to_csv` as an append to a file that is either missing or
  a sequence of lines. The header is written only when the file is created.
- `Logger` — `scrape_and_log` as a transition of the durable state
  (baseline, saved pictures, ledger), and a series of runs.
- `Text`, `Wrappers` — Python's whitespace class, `strip()`,
  `replace(",", "")`, and `Option`/`Result`.

The model follows the code. The code does several things a fuller design of
such a logger would do differently:

- A failed picture download raises out of `scrape_and_log`. Nothing is
  saved and no row is logged. The download is not treated as a warning
  that the run continues past.
- A missing picture URL raises before any write. There is no lenient mode
  that would still log a row.
- Counts are recorded as the text found, with commas removed. They are not
  converted to integers, and `k`/`m`/`b` suffixes are not interpreted.
- There is no posts column, no content-hash fingerprint, and no
  login-wall detection.

## Model

| member | source | states |
|---|---|---|
| Text.IsSpace | main.py:56 | `\s` and `strip()` both use Python's `str.isspace` set: it holds the ASCII whitespace and the ASCII separators, and no character of a count |
| Text.Strip | main.py:56 | `strip()` removes only whitespace, from both ends, and leaves a result that neither starts nor ends with whitespace |
| Text.StripFixedPoint | main.py:56 | `strip()` returns its input unchanged exactly when the input has no surrounding whitespace |
| Text.RemoveCommas | main.py:183 | `replace(",", "")` leaves no comma and never lengthens the text |
| Text.RemoveCommasMultiset | main.py:183 | `replace(",", "")` keeps every character other than a comma, with the same multiplicity, and drops every comma |
| Text.RemoveCommasAppend | main.py:183 | comma removal keeps the order of the remaining characters (it distributes over concatenation) |
| Text.RemoveCommasNoop | main.py:195-196 | a comma-free capture is returned as it is |
| Fingerprint.NormalizeUrl | main.py:65-72 | the fingerprint is a prefix of the URL with no `?` and no `#`, and it ends where the URL ends or at its first separator |
| Fingerprint.NormalizeUrlUnique | main.py:65-72 | those three properties determine the fingerprint uniquely |
| Fingerprint.NormalizeUrlFixedPoint | main.py:65-72 | a URL without query and fragment is its own fingerprint |
| Fingerprint.NormalizeUrlIdempotent | main.py:65-72 | normalising a fingerprint returns it unchanged |
| Fingerprint.CacheBusterIgnored | main.py:66-71 | whatever is appended after a `?` or `#` leaves the fingerprint unchanged, so a cache-buster never looks like a new picture |
| Fingerprint.SameFingerprint | main.py:65-72 | two URLs share a fingerprint exactly when they agree up to the first separator of the first one |
| CountText.Num | main.py:180-184 | `num` gives `None` for a missing text and for a text with no digit and no dot. Otherwise it gives a non-empty, comma-free leftmost maximal run of digits and dots of the comma-stripped text |
| CountText.LeftmostRunUnique | main.py:183 | a text has only one leftmost maximal run, so the value of `num` is determined |
| CountText.CommaFreeCountChars | main.py:181-184 | the comma-stripped text holds a `[\d,.]` character exactly when the original holds a digit or a dot |
| CountText.GreedyMatchIff | main.py:193-194 | the pattern `[\d,.]+\s+keyword` matches at a position exactly when the greedy scan finds the keyword there. Its group is the whole count run starting at that position |
| CountText.SearchFrom | main.py:193-194 | `re.search` returns the first position where the pattern matches, and no earlier position matches |
| CountText.MetaCount | main.py:192-196 | a count is found exactly when the pattern matches somewhere. The value is the group of the leftmost match with commas removed, and it may be empty |
| CountText.LeadingCount | main.py:190-196 | a description that opens with a count, a space and the keyword yields that count with commas removed |
| CountText.AbsentKeyword | main.py:193-196 | a description without the keyword yields `None` |
| CountText.Keyword | main.py:193-194 | the literal after the count in each regex is `followers` or `following`; it is non-empty and does not start with whitespace |
| CountText.IndependentCounts | main.py:193-197 | the two regexes are searched independently: a description that opens with a count run, a space and one keyword, and in which the other keyword never occurs, yields that count (commas removed) and no count for the other keyword |
| CountText.FollowersOnly | main.py:193-197 | in particular `n + " followers"`, with `n` a count run, yields the followers count `n` without commas and no following count |
| Chain.FirstSomeIndex | main.py:146-152 | the chain stops at the first strategy that finds something, and every earlier strategy missed |
| Chain.FirstSome | main.py:138-163 | the chain's outcome is `None` exactly when every strategy missed, and otherwise it is the first found outcome |
| Chain.FirstSomeAppend | main.py:146-163 | the fallback part of a chain is consulted only when every strategy before it missed |
| ProfilePage.PictureCandidates | main.py:138-163 | the strategies are tried in a fixed order: the five selectors in list order, each yielding exactly when its first element has a non-empty `src`, then `og:image` last |
| ProfilePage.SelectorSource | main.py:148-152 | a selector yields only the `src` of its first matched element, and only when that `src` is non-empty |
| ProfilePage.OgImageSource | main.py:156-162 | the `og:image` fallback yields its `content` only when the element exists and its `content` is non-empty |
| ProfilePage.PictureSource | main.py:133-163 | the picture URL is non-empty. It is the `src` of the first selector in list order that yields; `og:image` is used only when no selector yields; `None` only when every source is empty or missing |
| ProfilePage.OgImageShadowed | main.py:146-163 | once a selector yields, the `og:image` tag has no influence on the result |
| ProfilePage.DescriptionCounts | main.py:190-199 | a missing description element gives no counts, and so does an element without `content` (parsed as the empty text). A present `content` yields each count as the leftmost match of its own regex in that text, commas removed |
| ProfilePage.FollowCounts | main.py:166-199 | with two or more buttons, each count is found exactly when its button text holds a digit or a dot. With fewer buttons and no description there are no counts. Counts are comma-free |
| ProfilePage.ButtonsShadowDescription | main.py:177-186 | with two or more buttons the counts are `num` of the first and of the second button text. The description is never consulted, even when `num` gives `None`, and buttons after the second are never read |
| ProfilePage.DescriptionFallback | main.py:173-199 | with fewer than two buttons the counts are those of the description, whatever the buttons are |
| Baseline.LoadLastPicUrl | main.py:53-57 | no file gives `None`. A file gives its contents with surrounding whitespace stripped |
| Baseline.SaveLastPicUrl | main.py:60-62 | after saving, the file holds exactly the given URL |
| Baseline.SaveLoadRoundTrip | main.py:53-62 | a saved fingerprint loads back unchanged exactly when it has no surrounding whitespace |
| Baseline.Observe | main.py:313-323 | no baseline: updated, and the fingerprint becomes the baseline. Equal fingerprint: not updated, baseline untouched. Different fingerprint: updated, and the fingerprint (not the raw URL) is saved |
| Baseline.ObserveStable | main.py:313-323 | once a fingerprint without surrounding whitespace has been saved, the same picture, even behind a new cache-buster, is not an update (with surrounding whitespace it is, see `ObservePadded`) |
| Baseline.ObservePadded | main.py:53-62 | a fingerprint with surrounding whitespace never matches its own saved copy, so that picture counts as updated on every run. In the code only trailing whitespace, or leading non-ASCII whitespace, survives `normalize_url` (see the `Fingerprint.NormalizeUrl` lines under "Left out") |
| Ledger.FlagText | main.py:321-333 | the picture flag is written as `1` for an update and `0` otherwise, one character, so the two are told apart |
| Ledger.Cells | main.py:95-107 | a row has one value per column, and each value sits under the header name of its field |
| Ledger.LogToCsv | main.py:89-107 | a missing file is created with the header and the row. An existing file keeps all its lines and gains exactly one row and no header |
| Ledger.LogAllWritten | main.py:93-107 | appending to an existing file adds exactly the rows, in order |
| Ledger.LogAllFromMissing | main.py:93-107 | `n` appends starting without a file give one header and then the `n` rows in order |
| Ledger.LogToCsvWellFormed | main.py:93-107 | appending keeps the ledger as one header followed only by rows |
| Logger.PicturePath | main.py:317-318 | a saved picture lies in `profile_pics` (joined on at main.py:80) and is named by the stamp, an underscore, the username and `_profile.jpg` |
| Logger.PicturePathInjective | main.py:317-318 | with stamps of one length, two runs share a picture path only when they share the stamp and the username |
| Logger.Finish | main.py:326-336 | the end of a run appends its entry to the ledger and leaves the baseline and the pictures as they are |
| Logger.ScrapeAndLog | main.py:296-336 | a run completes exactly when a picture URL is found and the picture is either unchanged or downloaded. Without a picture URL the run fails before any write, and every failed run leaves the state unchanged. The picture is updated exactly when its fingerprint differs from the loaded baseline. The fingerprint is saved only together with a successful download of the raw URL. A completed run appends exactly one entry with the stats-chain counts |
| Logger.BaselineAfterRun | main.py:313-323 | after a completed run the baseline loads back as the current fingerprint, provided it has no surrounding whitespace |
| Logger.ColdStart | main.py:308-335 | with no baseline and no ledger, a run that finds and downloads the picture is an update. It saves one picture and the fingerprint, and creates the ledger with the header and one row |
| Logger.CacheBustedRerun | main.py:313-335 | a rerun showing the same picture behind any query or fragment, whether appended to the first URL or replacing its query (`…/a.jpg?oh=1` then `…/a.jpg?oh=2`), is not an update. It keeps the baseline and pictures, and still appends one row |
| Logger.RunAllLedger | main.py:335 | over a series of runs, the ledger gains one `log_to_csv` per completed run, in order. Failed runs add nothing |
| Logger.LedgerFromScratch | main.py:308-335 | starting without a ledger, `n` completed runs leave one header followed by their `n` rows |

## Left out

- Browser construction, Chrome and chromedriver discovery, and environment lookups (main.py:203-292): process and OS plumbing. The page is an input value.
- Cookie-dialog clicking (main.py:111-130): browser interaction. The page value is the page as it stands after the click, which may have dismissed a consent dialog.
- The 12-second polling loop, its sleeps, and the `WebDriverWait` timeouts: timing. The page is fixed while it is inspected, so each chain is one pass. A timed-out button wait is an empty button list.
- The HTTP download and its streaming (main.py:75-86): an opaque step whose success is an input. A partially written file after a failed stream is not modelled.
- File I/O and `os.path.exists`: the baseline file is an `Option<string>`, the ledger is `Missing` or a list of lines, and saved pictures are a list of path and URL pairs.
- `datetime.now()` and timestamp formatting: both readings are given as text.
- `driver.quit()` in the `finally` block (main.py:338-339), the `__main__` block, and printing the result.
- CSV quoting and escaping, and writing `None` as an empty field: library behaviour. Rows keep `None`.
- Fingerprint.NormalizeUrl: does not model `urlparse`/`urlunparse` library quirks. These include removal of tab, CR and LF, lower-casing of the scheme, stripping of leading C0 control characters and spaces (so `" https://x/a"` has the fingerprint `"https://x/a"` in the code, while the model keeps the space and then counts the picture as updated on every run), re-inserting `//` for some netloc-less URLs, and dropping an empty `;params` segment (`https://x/a;?cb=1` becomes `https://x/a`, where the model keeps the `;`). The URL is treated as a plain string.
- Fingerprint.NormalizeUrl: does not model the `ValueError` that `urlsplit` raises for a malformed network location (unbalanced `[` or `]`, an invalid bracketed host, a netloc that changes under NFKC normalisation). In the code such a URL aborts the run at main.py:313 before any write; `Logger.ScrapeAndLog` completes the run instead.
- CountText.Num: treats `\d` as the ASCII digits only; Python's `\d` also matches other Unicode decimal digits, whose table is not modelled.
- CountText.MetaCount: treats `\d` as the ASCII digits only, for the same reason; `\s` is modelled with Python's full whitespace set.
- CountText.IndependentCounts: covers descriptions that open with a count and one keyword and never mention the other keyword. A keyword with no count run right before it (as in `no followers yet`) yields no count; that case is covered only by `CountText.MetaCount`'s contract, not by this lemma.
- ProfilePage.FollowCounts: does not model an exception while reading a button's text (for example a stale element), which in the code also falls back to the description.
- Behaviour the code does not have: integer conversion of counts, `k`/`m`/`b` suffixes, a posts count, strict and lenient modes, login-wall detection, content-hash fingerprints, and high-resolution picture lookups.

=== FILE: baseline.dfy ===
/** The change detector and its single-slot baseline `last_pic_url.txt`.

    The baseline file is `None` when it does not exist and `Some(text)`
    otherwise. `load_last_pic_url` strips the text it reads;
    `save_last_pic_url` writes the fingerprint as it is. A picture counts
    as updated exactly when its fingerprint differs from the loaded
    baseline, and an absent baseline differs from every fingerprint. */
module Baseline {
  import opened Wrappers
  import opened Text
  import opened Fingerprint

  /** `load_last_pic_url`: the stripped contents of the baseline file, or
      `None` when there is no file. */
  function LoadLastPicUrl(file: Option<string>): (r: Option<string>)
    ensures r.None? <==> file.None?
    ensures r.Some? ==> Unpadded(r.value) && exists i :: StrippedAt(file.value, i, r.value)
  {
    match file
    case None => None
    case Some(text) => Some(Strip(text))
  }

  /** `save_last_pic_url`: the file afterwards holds exactly `url`. */
  function SaveLastPicUrl(url: string): (file: Option<string>)
    ensures file.Some? && file.value == url
  {
    Some(url)
  }

  /** A saved fingerprint loads back unchanged exactly when it has no
      surrounding whitespace. */
  lemma SaveLoadRoundTrip(url: string)
    ensures LoadLastPicUrl(SaveLastPicUrl(url)) == Some(url) <==> Unpadded(url)
  {
    StripFixedPoint(url);
  }

  /** What the detector decides for one observed picture URL: whether the
      picture counts as updated, and the baseline file to keep if the
      picture is then saved. */
  datatype Observation = Observation(updated: bool, file: Option<string>)

  /** The decision of `scrape_and_log` for the raw picture URL `raw`, in
      its three cases. No baseline: updated, and the fingerprint becomes
      the baseline. Same fingerprint as the loaded baseline: not updated,
      baseline untouched. Different fingerprint: updated, and the
      fingerprint, not the raw URL, replaces the baseline. */
  function Observe(file: Option<string>, raw: string): (o: Observation)
    ensures file.None? ==> o == Observation(true, Some(NormalizeUrl(raw)))
    ensures LoadLastPicUrl(file) == Some(NormalizeUrl(raw)) ==> o == Observation(false, file)
    ensures file.Some? && LoadLastPicUrl(file) != Some(NormalizeUrl(raw)) ==>
      o == Observation(true, Some(NormalizeUrl(raw)))
  {
    var current := NormalizeUrl(raw);
    if Some(current) != LoadLastPicUrl(file) then
      Observation(true, SaveLastPicUrl(current))
    else
      Observation(false, file)
  }

  /** Once a whitespace-free fingerprint has been saved, observing the same
      picture again, even behind a new cache-buster, is not an update. */
  lemma ObserveStable(raw: string, sep: char, tail: string)
    requires IsSeparator(sep)
    requires Unpadded(NormalizeUrl(raw))
    ensures !Observe(SaveLastPicUrl(NormalizeUrl(raw)), raw).updated
    ensures !Observe(SaveLastPicUrl(NormalizeUrl(raw)), raw + [sep] + tail).updated
  {
    SaveLoadRoundTrip(NormalizeUrl(raw));
    CacheBusterIgnored(raw, sep, tail);
  }

  /** A fingerprint with surrounding whitespace never matches its own saved
      copy, because loading strips it: every observation of that picture
      counts as an update. In the code, `urlsplit` already strips leading
      ASCII control characters and spaces from the URL, so only trailing
      whitespace, or leading non-ASCII whitespace, reaches this case there;
      the model, which does not strip the URL, reaches it for any
      surrounding whitespace. */
  lemma ObservePadded(raw: string)
    requires !Unpadded(NormalizeUrl(raw))
    ensures Observe(SaveLastPicUrl(NormalizeUrl(raw)), raw).updated
  {
    SaveLoadRoundTrip(NormalizeUrl(raw));
  }
}

=== FILE: chain.dfy ===
/** Ordered fallback chains: strategies tried in a fixed order, the first
    one that finds something wins. A strategy's outcome is an `Option`
    (`Some` = found, `None` = this strategy missed), so running the chain
    is a search for the first `Some` in the list of outcomes. */
module Chain {
  import opened Wrappers

  /** Position of the first found outcome, or `|xs|` when every strategy
      missed. */
  function FirstSomeIndex<T>(xs: seq<Option<T>>): (i: nat)
    ensures i <= |xs|
    ensures forall k :: 0 <= k < i ==> xs[k].None?
    ensures i < |xs| ==> xs[i].Some?
  {
    if xs == [] || xs[0].Some? then 0 else 1 + FirstSomeIndex(xs[1..])
  }

  /** The outcome of the chain: `None` exactly when every strategy missed,
      otherwise the outcome of the first strategy that found something. */
  function FirstSome<T>(xs: seq<Option<T>>): (r: Option<T>)
    ensures r.None? <==> forall k :: 0 <= k < |xs| ==> xs[k].None?
    ensures forall i :: 0 <= i < |xs| && xs[i].Some? && (forall k :: 0 <= k < i ==> xs[k].None?) ==> r == xs[i]
  {
    var i := FirstSomeIndex(xs);
    if i < |xs| then xs[i] else None
  }

  /** A chain split in two: the second part is consulted only when every
      strategy of the first part missed. */
  lemma FirstSomeAppend<T>(a: seq<Option<T>>, b: seq<Option<T>>)
    ensures FirstSome(a + b) == if FirstSome(a).Some? then FirstSome(a) else FirstSome(b)
  {
    var ab := a + b;
    if FirstSome(a).Some? {
      var i := FirstSomeIndex(a);
      assert ab[i] == a[i];
    } else {
      assert forall k :: 0 <= k < |a| ==> ab[k] == a[k];
      if FirstSome(b).Some? {
        var i := FirstSomeIndex(b);
        assert ab[|a| + i] == b[i];
      } else {
        assert forall k :: |a| <= k < |ab| ==> ab[k] == b[k - |a|];
      }
    }
  }
}

=== FILE: count_text.dfy ===
/** The two count extractors of `_get_follow_counts`.

    - `Num` is the inner helper `num` applied to a header button's text:
      commas are deleted, then the first match of `[\d,.]+` is returned.
    - `MetaCount` is the meta-description parser: the first match of
      `([\d,.]+)\s+followers` (or `... following`), with commas deleted
      from the captured group.

    Both return the matched text, not a number: the logger records the
    count as it appears on the page. */
module CountText {
  import opened Wrappers
  import opened Text

  // ----- num(txt) -----

  /** `t[i..j]` is the leftmost maximal run of `[\d,.]` in `t`, which is
      what `re.search(r"[\d,.]+", t)` matches. */
  ghost predicate LeftmostRun(t: string, i: int, j: int) {
    && 0 <= i < j <= |t|
    && NoCount(t, 0, i)
    && AllCount(t, i, j)
    && (j == |t| || !IsCountChar(t[j]))
  }

  /** `s` holds a digit or a dot, the characters `num` can return. */
  predicate HasDigitOrDot(s: string) {
    exists c :: c in s && (IsDigit(c) || c == '.')
  }

  /** A string has at most one leftmost maximal run. */
  lemma LeftmostRunUnique(t: string, i1: int, j1: int, i2: int, j2: int)
    requires LeftmostRun(t, i1, j1) && LeftmostRun(t, i2, j2)
    ensures i1 == i2 && j1 == j2
  {
    assert IsCountChar(t[i1]) && IsCountChar(t[i2]);
    assert i1 == i2;
  }

  /** After comma removal a count character is a digit or a dot, and one
      is present exactly when the original text holds a digit or a dot. */
  lemma CommaFreeCountChars(s: string)
    ensures var t := RemoveCommas(s);
      (exists m :: 0 <= m < |t| && IsCountChar(t[m])) <==> HasDigitOrDot(s)
  {
    var t := RemoveCommas(s);
    if exists m :: 0 <= m < |t| && IsCountChar(t[m]) {
      var m :| 0 <= m < |t| && IsCountChar(t[m]);
      RemoveCommasMembers(s, t[m]);
    }
    if HasDigitOrDot(s) {
      var c :| c in s && (IsDigit(c) || c == '.');
      RemoveCommasMembers(s, c);
      var m :| 0 <= m < |t| && t[m] == c;
    }
  }

  /** `num(txt)`: `None` for a missing or empty text and for a text with
      no digit and no dot; otherwise the leftmost maximal run of digits
      and dots of the comma-stripped text. */
  function Num(txt: Option<string>): (r: Option<string>)
    ensures r.Some? <==> txt.Some? && HasDigitOrDot(txt.value)
    ensures r.Some? ==> r.value != [] && ',' !in r.value
    ensures r.Some? ==>
      exists i, j :: LeftmostRun(RemoveCommas(txt.value), i, j) && r.value == RemoveCommas(txt.value)[i..j]
  {
    if txt.None? || txt.value == [] then
      None
    else
      var t := RemoveCommas(txt.value);
      var i := FirstCount(t, 0);
      CommaFreeCountChars(txt.value);
      if i == |t| then
        None
      else
        var j := RunEnd(t, i);
        assert LeftmostRun(t, i, j);
        RemoveCommasMembers(txt.value, t[i]);
        assert t[i] in txt.value && (IsDigit(t[i]) || t[i] == '.');
        Some(t[i..j])
  }

  // ----- the meta-description regexes -----

  /** The two counts read from the meta description. */
  datatype Stat = Followers | Following

  /** The literal that follows the count in each regex. */
  function Keyword(s: Stat): (kw: string)
    ensures kw != [] && !IsSpace(kw[0])
  {
    match s
    case Followers => "followers"
    case Following => "following"
  }

  /** The keyword `kw` occurs in `t` at position `k`. */
  ghost predicate OccursAt(t: string, kw: string, k: int) {
    0 <= k && k + |kw| <= |t| && t[k..k + |kw|] == kw
  }

  /** `[\d,.]+\s+kw` matches `t` at `p`, with the group `([\d,.]+)` over
      `t[p..j]`, the whitespace over `t[j..k]` and the keyword from `k`. */
  ghost predicate MatchSpan(t: string, kw: string, p: int, j: int, k: int) {
    && p < j < k
    && AllCount(t, p, j)
    && AllSpace(t, j, k)
    && OccursAt(t, kw, k)
  }

  /** The pattern matches `t` at `p`. */
  ghost predicate MatchesAt(t: string, kw: string, p: int) {
    exists j, k :: MatchSpan(t, kw, p, j, k)
  }

  /** The pattern matches `t` at no position before `p`. */
  ghost predicate NoMatchBefore(t: string, kw: string, p: int) {
    forall q :: 0 <= q < p ==> !MatchesAt(t, kw, q)
  }

  /** The match test without backtracking: take the whole run of
      `[\d,.]` from `p`, then the whole run of whitespace after it, and
      look for the keyword. */
  predicate GreedyMatch(t: string, kw: string, p: nat)
    requires p <= |t|
  {
    && p < |t|
    && IsCountChar(t[p])
    && var j := RunEnd(t, p);
       var k := SpaceEnd(t, j);
       j < k && k + |kw| <= |t| && t[k..k + |kw|] == kw
  }

  /** Backtracking cannot find a match that the greedy test misses: the
      count group must stop at whitespace, which is never a count
      character, and the whitespace must stop at the keyword, whose first
      character is not whitespace. So a match at `p` exists exactly when
      the greedy test succeeds, and its group is the whole run from `p`. */
  lemma GreedyMatchIff(t: string, kw: string, p: nat)
    requires p <= |t|
    requires kw != [] && !IsSpace(kw[0])
    ensures GreedyMatch(t, kw, p) <==> MatchesAt(t, kw, p)
    ensures GreedyMatch(t, kw, p) ==> MatchSpan(t, kw, p, RunEnd(t, p), SpaceEnd(t, RunEnd(t, p)))
    ensures forall j, k :: MatchSpan(t, kw, p, j, k) ==> j == RunEnd(t, p) && k == SpaceEnd(t, j)
  {
    forall j, k | MatchSpan(t, kw, p, j, k)
      ensures j == RunEnd(t, p) && k == SpaceEnd(t, j)
    {
      var jr := RunEnd(t, p);
      assert IsSpace(t[j]);
      assert jr == j;
      var kr := SpaceEnd(t, j);
      assert t[k] == kw[0];
      assert kr == k;
    }
    if GreedyMatch(t, kw, p) {
      assert MatchSpan(t, kw, p, RunEnd(t, p), SpaceEnd(t, RunEnd(t, p)));
    }
  }

  /** `re.search` from position `p`: the first position at or after `p`
      where the pattern matches, if any. */
  function SearchFrom(t: string, kw: string, p: nat): (m: Option<nat>)
    requires p <= |t|
    requires kw != [] && !IsSpace(kw[0])
    ensures m.Some? ==> p <= m.value < |t| && GreedyMatch(t, kw, m.value) && MatchesAt(t, kw, m.value)
    ensures forall q :: p <= q < |t| && (m.None? || q < m.value) ==> !MatchesAt(t, kw, q)
    decreases |t| - p
  {
    if p == |t| then
      None
    else
      GreedyMatchIff(t, kw, p);
      if GreedyMatch(t, kw, p) then Some(p) else SearchFrom(t, kw, p + 1)
  }

  /** `re.search(r"([\d,.]+)\s+<keyword>", desc)` followed by
      `group(1).replace(",", "")`: `None` exactly when the pattern matches
      nowhere; otherwise the group of the leftmost match, commas deleted.
      The group may consist of commas only, so the value may be empty. */
  function MetaCount(desc: string, stat: Stat): (r: Option<string>)
    ensures r.Some? <==> exists p :: 0 <= p < |desc| && MatchesAt(desc, Keyword(stat), p)
    ensures r.Some? ==> ',' !in r.value
    ensures r.Some? ==>
      exists p, j, k ::
        && MatchSpan(desc, Keyword(stat), p, j, k)
        && NoMatchBefore(desc, Keyword(stat), p)
        && r.value == RemoveCommas(desc[p..j])
  {
    var kw := Keyword(stat);
    match SearchFrom(desc, kw, 0)
    case None => None
    case Some(p) =>
      GreedyMatchIff(desc, kw, p);
      var j := RunEnd(desc, p);
      assert MatchSpan(desc, kw, p, j, SpaceEnd(desc, j));
      Some(RemoveCommas(desc[p..j]))
  }

  /** The leftmost match decides: a description that opens with a count
      run, one space and the keyword yields that run, commas deleted,
      whatever follows. */
  lemma LeadingCount(n: string, stat: Stat, rest: string)
    requires n != [] && AllCount(n, 0, |n|)
    ensures MetaCount(n + " " + Keyword(stat) + rest, stat) == Some(RemoveCommas(n))
  {
    var kw := Keyword(stat);
    var d := n + " " + kw + rest;
    LeadingSpan(n, kw, rest);
    GreedyMatchIff(d, kw, 0);
    assert SearchFrom(d, kw, 0) == Some(0);
    assert RunEnd(d, 0) == |n|;
    assert d[0..|n|] == n;
  }

  /** Helper for `LeadingCount`: where the match of its description lies. */
  lemma LeadingSpan(n: string, kw: string, rest: string)
    requires n != [] && AllCount(n, 0, |n|)
    ensures MatchSpan(n + " " + kw + rest, kw, 0, |n|, |n| + 1)
  {
    var d := n + " " + kw + rest;
    assert forall m :: 0 <= m < |n| ==> d[m] == n[m];
    assert d[|n|] == ' ';
    assert d[|n| + 1..|n| + 1 + |kw|] == kw;
  }

  /** A description in which the keyword never occurs yields no count. */
  lemma AbsentKeyword(desc: string, stat: Stat)
    requires forall k :: !OccursAt(desc, Keyword(stat), k)
    ensures MetaCount(desc, stat) == None
  {
  }

  /** The other count of the pair. */
  function Other(s: Stat): Stat {
    match s
    case Followers => Following
    case Following => Followers
  }

  /** The two counts are parsed independently: in a description that opens
      with a count, a space and one keyword, and never mentions the other
      keyword, the first count is found and the other is not. */
  lemma IndependentCounts(n: string, stat: Stat, rest: string)
    requires n != [] && AllCount(n, 0, |n|)
    requires forall k :: !OccursAt(n + " " + Keyword(stat) + rest, Keyword(Other(stat)), k)
    ensures MetaCount(n + " " + Keyword(stat) + rest, stat) == Some(RemoveCommas(n))
    ensures MetaCount(n + " " + Keyword(stat) + rest, Other(stat)) == None
  {
    LeadingCount(n, stat, rest);
    AbsentKeyword(n + " " + Keyword(stat) + rest, Other(stat));
  }

  /** The simplest instance: `n + " followers"` yields the followers count
      and no following count. */
  lemma FollowersOnly(n: string)
    requires n != [] && AllCount(n, 0, |n|)
    ensures MetaCount(n + " followers", Followers) == Some(RemoveCommas(n))
    ensures MetaCount(n + " followers", Following) == None
  {
    var d := n + " followers";
    assert n + " " + Keyword(Followers) + [] == d;
    NoFollowing(n);
    IndependentCounts(n, Followers, []);
  }

  /** Helper for `FollowersOnly`: `n + " followers"` holds no `g`,
      so "following" occurs nowhere in it. */
  lemma NoFollowing(n: string)
    requires AllCount(n, 0, |n|)
    ensures forall k :: !OccursAt(n + " followers", Keyword(Following), k)
  {
    var d := n + " followers";
    var kw := Keyword(Following);
    forall m | 0 <= m < |d|
      ensures d[m] != 'g'
    {
      if m < |n| {
        assert d[m] == n[m] && IsCountChar(n[m]);
      } else {
        assert d[m] == " followers"[m - |n|];
      }
    }
    forall k | 0 <= k && k + |kw| <= |d|
      ensures !OccursAt(d, kw, k)
    {
      assert d[k..k + |kw|][8] == d[k + 8];
      assert kw[8] == 'g';
    }
  }
}

=== FILE: fingerprint.dfy ===
/** The picture fingerprint: `normalize_url` keeps scheme, host and path
    of a picture URL and drops its query string and fragment, so that a
    CDN cache-buster appended to an unchanged picture is not taken for a
    new picture.

    `urlparse` splits the fragment off at the first `#`, then the query
    at the first `?` of what is left, and `urlunparse` writes neither back
    when both are empty. On a URL without the library's other quirks
    (listed with the model's omissions) the result is therefore the
    prefix before the first `?` or `#`. */
module Fingerprint {

  /** A character that starts the query (`?`) or the fragment (`#`). */
  predicate IsSeparator(c: char) {
    c == '?' || c == '#'
  }

  /** No query or fragment separator occurs in `s`. */
  predicate SeparatorFree(s: string) {
    forall m :: 0 <= m < |s| ==> !IsSeparator(s[m])
  }

  /** Index of the first `?` or `#` at or after `i`, or `|url|`. */
  function SeparatorFrom(url: string, i: nat): (k: nat)
    requires i <= |url|
    ensures i <= k <= |url|
    ensures forall m :: i <= m < k ==> !IsSeparator(url[m])
    ensures k < |url| ==> IsSeparator(url[k])
    decreases |url| - i
  {
    if i == |url| || IsSeparator(url[i]) then i else SeparatorFrom(url, i + 1)
  }

  /** `normalize_url(url)`: the URL without query string and fragment.
      The result is the longest separator-free prefix of `url`: it is a
      prefix, contains neither `?` nor `#`, and either is all of `url` or
      stops right at a separator. */
  function NormalizeUrl(url: string): (r: string)
    ensures r <= url
    ensures SeparatorFree(r)
    ensures |r| == |url| || IsSeparator(url[|r|])
  {
    url[..SeparatorFrom(url, 0)]
  }

  /** The three properties promised by `NormalizeUrl` pin the result down:
      any string having them is the normalised URL. */
  lemma NormalizeUrlUnique(url: string, r: string)
    requires r <= url
    requires SeparatorFree(r)
    requires |r| == |url| || IsSeparator(url[|r|])
    ensures r == NormalizeUrl(url)
  {
    var n := NormalizeUrl(url);
    assert forall m :: 0 <= m < |r| ==> url[m] == r[m];
    assert forall m :: 0 <= m < |n| ==> url[m] == n[m];
  }

  /** A URL without query and fragment is its own fingerprint. */
  lemma NormalizeUrlFixedPoint(url: string)
    requires SeparatorFree(url)
    ensures NormalizeUrl(url) == url
  {
    NormalizeUrlUnique(url, url);
  }

  /** Normalising is idempotent: a fingerprint normalises to itself. */
  lemma NormalizeUrlIdempotent(url: string)
    ensures NormalizeUrl(NormalizeUrl(url)) == NormalizeUrl(url)
  {
    NormalizeUrlFixedPoint(NormalizeUrl(url));
  }

  /** No false positive from a cache-buster: whatever follows a `?` or `#`
      appended to a URL leaves its fingerprint unchanged. */
  lemma CacheBusterIgnored(url: string, sep: char, tail: string)
    requires IsSeparator(sep)
    ensures NormalizeUrl(url + [sep] + tail) == NormalizeUrl(url)
  {
    var u := url + [sep] + tail;
    var n := NormalizeUrl(url);
    if |n| == |url| {
      assert u[|url|] == sep;
    } else {
      assert u[|n|] == url[|n|];
    }
    assert n <= u;
    NormalizeUrlUnique(u, n);
  }

  /** Two URLs share a fingerprint exactly when the second one starts with
      the fingerprint of the first and ends, or reaches a `?` or `#`,
      right after it: only the text after the first separator is ignored. */
  lemma SameFingerprint(a: string, b: string)
    ensures NormalizeUrl(a) == NormalizeUrl(b) <==>
      (var n := NormalizeUrl(a);
       n <= b && (|n| == |b| || IsSeparator(b[|n|])))
  {
    var n := NormalizeUrl(a);
    if n <= b && (|n| == |b| || IsSeparator(b[|n|])) {
      NormalizeUrlUnique(b, n);
    }
  }
}

=== FILE: ledger.dfy ===
/** The CSV ledger `profile_log.csv` written by `log_to_csv`.

    The file is either missing or a sequence of lines. Lines are kept
    structured: the header is the list of column names, a row is the list
    of values in column order, with `None` for a value the run did not
    find. Appending is the only change ever made to it. */
module Ledger {
  import opened Wrappers

  /** The fixed column list, in the order the columns are written. */
  const Columns: seq<string> := ["timestamp", "username", "followers", "following", "is_picture_updated"]

  /** The record one completed run appends (the `entry` dictionary). The
      picture flag is written as `1` or `0`. */
  datatype Entry = Entry(
    timestamp: string,
    username: string,
    followers: Option<string>,
    following: Option<string>,
    isPictureUpdated: bool)

  datatype Line = Header(names: seq<string>) | Row(cells: seq<Option<string>>)

  datatype LedgerFile = Missing | Written(lines: seq<Line>)

  /** Position of column `name` in `cols`, or `|cols|` when it is absent. */
  function IndexOf(cols: seq<string>, name: string): (i: nat)
    ensures i <= |cols|
    ensures i < |cols| ==> cols[i] == name
    ensures forall k :: 0 <= k < i ==> cols[k] != name
  {
    if cols == [] || cols[0] == name then 0 else 1 + IndexOf(cols[1..], name)
  }

  /** How the picture flag is written: `1` for an update, `0` otherwise,
      so the flag can be read back from the row. */
  function FlagText(b: bool): (t: string)
    ensures |t| == 1
    ensures t == "1" <==> b
    ensures t == "0" <==> !b
  {
    if b then "1" else "0"
  }

  /** `DictWriter.writerow(entry)`: one value per column, each value under
      the header name of its field. */
  function Cells(e: Entry): (cells: seq<Option<string>>)
    ensures |cells| == |Columns|
    ensures cells[IndexOf(Columns, "timestamp")] == Some(e.timestamp)
    ensures cells[IndexOf(Columns, "username")] == Some(e.username)
    ensures cells[IndexOf(Columns, "followers")] == e.followers
    ensures cells[IndexOf(Columns, "following")] == e.following
    ensures cells[IndexOf(Columns, "is_picture_updated")] == Some(FlagText(e.isPictureUpdated))
  {
    [Some(e.timestamp), Some(e.username), e.followers, e.following, Some(FlagText(e.isPictureUpdated))]
  }

  /** `log_to_csv(entry)`: a missing file is created with the header and
      the row; an existing file keeps every line it had and gains exactly
      the row, with no header. */
  function LogToCsv(file: LedgerFile, e: Entry): (r: LedgerFile)
    ensures r.Written?
    ensures file.Missing? ==> r.lines == [Header(Columns), Row(Cells(e))]
    ensures file.Written? ==> |r.lines| == |file.lines| + 1 && file.lines <= r.lines
    ensures r.lines[|r.lines| - 1] == Row(Cells(e))
  {
    match file
    case Missing => Written([Header(Columns), Row(Cells(e))])
    case Written(lines) => Written(lines + [Row(Cells(e))])
  }

  /** The rows written for `es`, in order. */
  function Rows(es: seq<Entry>): (rows: seq<Line>)
    ensures |rows| == |es|
    ensures forall i :: 0 <= i < |es| ==> rows[i] == Row(Cells(es[i]))
  {
    if es == [] then [] else [Row(Cells(es[0]))] + Rows(es[1..])
  }

  /** `log_to_csv` called once per entry, in order. */
  function LogAll(file: LedgerFile, es: seq<Entry>): LedgerFile
    decreases |es|
  {
    if es == [] then file else LogAll(LogToCsv(file, es[0]), es[1..])
  }

  /** Appending to an existing file adds the rows and nothing else. */
  lemma {:induction false} LogAllWritten(lines: seq<Line>, es: seq<Entry>)
    ensures LogAll(Written(lines), es) == Written(lines + Rows(es))
    decreases |es|
  {
    if es == [] {
      assert lines + Rows(es) == lines;
    } else {
      LogAllWritten(lines + [Row(Cells(es[0]))], es[1..]);
      assert lines + [Row(Cells(es[0]))] + Rows(es[1..]) == lines + Rows(es);
    }
  }

  /** `n` appends starting without a file give one header followed by the
      `n` rows in order; with no append the file stays missing. */
  lemma {:induction false} LogAllFromMissing(es: seq<Entry>)
    ensures es == [] ==> LogAll(Missing, es) == Missing
    ensures es != [] ==> LogAll(Missing, es) == Written([Header(Columns)] + Rows(es))
  {
    if es != [] {
      // The first append creates the file with the header, exactly as an
      // append to a file holding only the header would leave it.
      assert LogToCsv(Missing, es[0]) == LogToCsv(Written([Header(Columns)]), es[0]);
      assert LogAll(Missing, es) == LogAll(Written([Header(Columns)]), es);
      LogAllWritten([Header(Columns)], es);
    }
  }

  /** A well-formed ledger: one header with the fixed columns, then rows. */
  predicate WellFormed(file: LedgerFile) {
    file.Written? ==>
      && |file.lines| >= 1
      && file.lines[0] == Header(Columns)
      && forall i :: 1 <= i < |file.lines| ==> file.lines[i].Row?
  }

  /** Appending keeps a ledger well-formed: the header is never repeated. */
  lemma LogToCsvWellFormed(file: LedgerFile, e: Entry)
    requires WellFormed(file)
    ensures WellFormed(LogToCsv(file, e))
  {
  }
}

=== FILE: logger.dfy ===
/** One run of `scrape_and_log`, and a series of runs.

    A run is a pure transition of the durable state (baseline file, saved
    pictures, ledger). The browser has already loaded the page; the
    picture download is an opaque step whose success or failure is given;
    clock readings are given as text. */
module Logger {
  import opened Wrappers
  import opened Text
  import opened Fingerprint
  import opened ProfilePage
  import opened Baseline
  import opened Ledger

  /** Directory the pictures are saved in. */
  const PicDir: string := "profile_pics"

  /** A picture file written by a run: where, and the URL it came from. */
  datatype SavedPicture = SavedPicture(path: string, url: string)

  /** The durable state a run reads and writes. */
  datatype Store = Store(baselineFile: Option<string>, pictures: seq<SavedPicture>, ledger: LedgerFile)

  /** What a run depends on besides the store: the profile, the loaded
      page, whether the picture download would succeed, and the two clock
      readings (the file-name stamp `%Y%m%d_%H%M%S` and the row's
      `isoformat()` stamp). */
  datatype RunInput = RunInput(
    username: string,
    page: Page,
    downloadSucceeds: bool,
    fileStamp: string,
    rowStamp: string)

  /** Why a run raised instead of logging. */
  datatype RunError = PictureNotFound | DownloadFailed

  datatype RunOutcome = RunOutcome(store: Store, result: Result<Entry, RunError>)

  /** The suffix of every saved picture's file name. */
  const PicSuffix: string := "_profile.jpg"

  /** `os.path.join(PIC_DIR, f"{ts}_{username}_profile.jpg")`: the file
      lies in the picture directory, and its name is the stamp, an
      underscore, the username and the fixed suffix. */
  function PicturePath(stamp: string, username: string): (path: string)
    ensures |path| == |PicDir| + |stamp| + |username| + 2 + |PicSuffix|
    ensures path[..|PicDir| + 1] == PicDir + "/"
    ensures path[|PicDir| + 1..|PicDir| + 1 + |stamp|] == stamp
    ensures path[|PicDir| + 1 + |stamp|] == '_'
    ensures path[|PicDir| + 2 + |stamp|..|path| - |PicSuffix|] == username
    ensures path[|path| - |PicSuffix|..] == PicSuffix
  {
    PicDir + "/" + stamp + "_" + username + PicSuffix
  }

  /** Stamps of one format have one length (`%Y%m%d_%H%M%S` always has
      15 characters), and then two runs share a picture path only when
      they share both the stamp and the username: pictures saved at
      different seconds never overwrite each other. */
  lemma PicturePathInjective(s1: string, u1: string, s2: string, u2: string)
    requires |s1| == |s2|
    requires PicturePath(s1, u1) == PicturePath(s2, u2)
    ensures s1 == s2 && u1 == u2
  {
    var p := PicturePath(s1, u1);
    assert s1 == p[|PicDir| + 1..|PicDir| + 1 + |s1|];
    assert u1 == p[|PicDir| + 2 + |s1|..|p| - |PicSuffix|];
  }

  /** The tail of a run once the picture decision is taken: read the
      counts, build the entry and append it to the ledger. */
  function Finish(st: Store, input: RunInput, updated: bool): (o: RunOutcome)
    ensures o.result.Success?
    ensures o.store.baselineFile == st.baselineFile && o.store.pictures == st.pictures
    ensures o.store.ledger == LogToCsv(st.ledger, o.result.value)
  {
    var counts := FollowCounts(input.page);
    var entry := Entry(input.rowStamp, input.username, counts.followers, counts.following, updated);
    RunOutcome(st.(ledger := LogToCsv(st.ledger, entry)), Success(entry))
  }

  /** The run gets past the picture step: a picture URL is found, and
      either it is not an update or its download succeeds. */
  predicate Completes(st: Store, input: RunInput) {
    && PictureSource(input.page).Some?
    && (input.downloadSucceeds
        || LoadLastPicUrl(st.baselineFile) == Some(NormalizeUrl(PictureSource(input.page).value)))
  }

  /** `scrape_and_log`. Without a picture URL the run raises before any
      write. Otherwise the picture is updated exactly when its fingerprint
      differs from the loaded baseline; then the raw URL is downloaded
      and, only once that returns, the fingerprint is saved as the new
      baseline; a failed download raises with nothing written. A run that
      gets past the picture step appends exactly one entry, carrying the
      counts of the stats chain. */
  function ScrapeAndLog(st: Store, input: RunInput): (o: RunOutcome)
    ensures PictureSource(input.page).None? ==> o == RunOutcome(st, Failure(PictureNotFound))
    ensures o.result.Success? <==> Completes(st, input)
    ensures o.result.Failure? ==> o.store == st
    ensures o.result == Failure(DownloadFailed) <==>
      && PictureSource(input.page).Some?
      && LoadLastPicUrl(st.baselineFile) != Some(NormalizeUrl(PictureSource(input.page).value))
      && !input.downloadSucceeds
    ensures o.result.Success? ==>
      var raw := PictureSource(input.page).value;
      var e := o.result.value;
      && PictureSource(input.page).Some?
      && (e.isPictureUpdated <==> LoadLastPicUrl(st.baselineFile) != Some(NormalizeUrl(raw)))
      && (e.isPictureUpdated ==>
            && o.store.baselineFile == Some(NormalizeUrl(raw))
            && o.store.pictures == st.pictures + [SavedPicture(PicturePath(input.fileStamp, input.username), raw)])
      && (!e.isPictureUpdated ==>
            o.store.baselineFile == st.baselineFile && o.store.pictures == st.pictures)
      && e.followers == FollowCounts(input.page).followers
      && e.following == FollowCounts(input.page).following
      && e.username == input.username
      && e.timestamp == input.rowStamp
      && o.store.ledger == LogToCsv(st.ledger, e)
  {
    match PictureSource(input.page)
    case None => RunOutcome(st, Failure(PictureNotFound))
    case Some(raw) =>
      if raw == [] then
        RunOutcome(st, Failure(PictureNotFound))
      else
        var observation := Observe(st.baselineFile, raw);
        if observation.updated then
          if !input.downloadSucceeds then
            RunOutcome(st, Failure(DownloadFailed))
          else
            var saved := SavedPicture(PicturePath(input.fileStamp, input.username), raw);
            Finish(st.(pictures := st.pictures + [saved], baselineFile := observation.file), input, true)
        else
          Finish(st, input, false)
  }

  /** After a completed run the baseline loads back as the fingerprint of
      the picture just seen, provided that fingerprint has no surrounding
      whitespace. */
  lemma BaselineAfterRun(st: Store, input: RunInput)
    requires Completes(st, input)
    requires Unpadded(NormalizeUrl(PictureSource(input.page).value))
    ensures LoadLastPicUrl(ScrapeAndLog(st, input).store.baselineFile) == Some(NormalizeUrl(PictureSource(input.page).value))
  {
    SaveLoadRoundTrip(NormalizeUrl(PictureSource(input.page).value));
  }

  /** Cold start: with no baseline and no ledger, a run that finds a
      picture and downloads it reports an update, saves the picture and
      its fingerprint, and creates the ledger with the header and one row. */
  lemma ColdStart(input: RunInput)
    requires PictureSource(input.page).Some?
    requires input.downloadSucceeds
    ensures var o := ScrapeAndLog(Store(None, [], Missing), input);
      && o.result.Success?
      && o.result.value.isPictureUpdated
      && o.store.baselineFile == Some(NormalizeUrl(PictureSource(input.page).value))
      && |o.store.pictures| == 1
      && o.store.ledger == Written([Header(Columns), Row(Cells(o.result.value))])
  {
  }

  /** Cache-busted rerun: after a completed run, a run whose page shows
      the same picture behind any query or fragment (one appended to the
      first URL, or one replacing the first URL's own query) reports no
      update, keeps the baseline and the saved pictures, and still appends
      one row. */
  lemma CacheBustedRerun(st: Store, first: RunInput, second: RunInput, sep: char, tail: string)
    requires Completes(st, first)
    requires IsSeparator(sep)
    requires Unpadded(NormalizeUrl(PictureSource(first.page).value))
    requires PictureSource(second.page) == Some(NormalizeUrl(PictureSource(first.page).value) + [sep] + tail)
    ensures var st1 := ScrapeAndLog(st, first).store;
      var o := ScrapeAndLog(st1, second);
      && o.result.Success?
      && !o.result.value.isPictureUpdated
      && o.store.baselineFile == st1.baselineFile
      && o.store.pictures == st1.pictures
      && o.store.ledger == LogToCsv(st1.ledger, o.result.value)
  {
    var raw := PictureSource(first.page).value;
    var n := NormalizeUrl(raw);
    BaselineAfterRun(st, first);
    CacheBusterIgnored(n, sep, tail);
    NormalizeUrlIdempotent(raw);
  }

  // ----- a series of runs -----

  /** The state after a series of runs, and the entries of the runs that
      completed, in order. */
  datatype History = History(store: Store, entries: seq<Entry>)

  /** Runs `inputs` one after the other, each on the state the previous
      one left. */
  function RunAll(st: Store, inputs: seq<RunInput>): History
    decreases |inputs|
  {
    if inputs == [] then
      History(st, [])
    else
      var o := ScrapeAndLog(st, inputs[0]);
      var rest := RunAll(o.store, inputs[1..]);
      var logged := if o.result.Success? then [o.result.value] else [];
      History(rest.store, logged + rest.entries)
  }

  /** The ledger after a series of runs is the ledger before it with one
      `log_to_csv` per completed run, in order; failed runs add nothing. */
  lemma {:induction false} RunAllLedger(st: Store, inputs: seq<RunInput>)
    ensures RunAll(st, inputs).store.ledger == LogAll(st.ledger, RunAll(st, inputs).entries)
    decreases |inputs|
  {
    if inputs != [] {
      var o := ScrapeAndLog(st, inputs[0]);
      var rest := RunAll(o.store, inputs[1..]);
      RunAllLedger(o.store, inputs[1..]);
      if o.result.Success? {
        var es := [o.result.value] + rest.entries;
        assert RunAll(st, inputs) == History(rest.store, es);
        assert es[0] == o.result.value && es[1..] == rest.entries;
        assert LogAll(st.ledger, es) == LogAll(LogToCsv(st.ledger, o.result.value), rest.entries);
      } else {
        assert o.store == st;
        assert RunAll(st, inputs) == History(rest.store, [] + rest.entries);
        assert [] + rest.entries == rest.entries;
      }
    }
  }

  /** Starting without a ledger, `n` completed runs leave a ledger of one
      header followed by their `n` rows in order. */
  lemma LedgerFromScratch(st: Store, inputs: seq<RunInput>)
    requires st.ledger.Missing?
    ensures var h := RunAll(st, inputs);
      && (h.entries == [] ==> h.store.ledger == Missing)
      && (h.entries != [] ==> h.store.ledger == Written([Header(Columns)] + Rows(h.entries)))
  {
    RunAllLedger(st, inputs);
    LogAllFromMissing(RunAll(st, inputs).entries);
  }
}

=== FILE: profile_page.dfy ===
/** The loaded profile page, reduced to what the two extraction chains
    read from it, and the chains themselves.

    The browser is not modelled: a page is the answer the browser would
    give to each lookup the logger makes. Since the page does not change
    while it is inspected, the 12-second polling loop of the picture chain
    sees the same answers on every pass and amounts to a single pass. */
module ProfilePage {
  import opened Wrappers
  import opened Chain
  import opened CountText

  /** The lookups the logger makes on the page.
      - `images`: for each CSS selector, the `src` attribute of every
        element it matches, in document order (a selector that is not a
        key matches nothing); `None` is an element without the attribute.
      - `ogImage`: the `meta[property='og:image']` element, if present,
        with its `content` attribute.
      - `buttons`: the texts of the `header section button` elements, in
        document order; an empty list is the wait for them timing out.
      - `description`: the `meta[name='description']` element, if
        present, with its `content` attribute. */
  datatype Page = Page(
    images: map<string, seq<Option<string>>>,
    ogImage: Option<Option<string>>,
    buttons: seq<string>,
    description: Option<Option<string>>)

  /** The picture selectors, in the order they are tried. */
  const PictureSelectors: seq<string> := [
    "img[alt$='profile picture']",
    "img[alt*='profile picture']",
    "header img[alt$='profile picture']",
    "header a img[alt$='profile picture']",
    "header a img"
  ]

  /** `find_elements(By.CSS_SELECTOR, sel)`, reduced to the `src` attributes. */
  function Matched(page: Page, sel: string): seq<Option<string>> {
    if sel in page.images then page.images[sel] else []
  }

  /** Python truthiness of a `str | None` attribute value. */
  predicate Truthy(v: Option<string>) {
    v.Some? && v.value != []
  }

  /** Selector `PictureSelectors[i]` yields a picture: its first matched
      element has a non-empty `src`. Later matches are never looked at. */
  ghost predicate SelectorYields(page: Page, i: int) {
    && 0 <= i < |PictureSelectors|
    && |Matched(page, PictureSelectors[i])| > 0
    && Truthy(Matched(page, PictureSelectors[i])[0])
  }

  /** `PictureSelectors[i]` is the first selector, in list order, that yields. */
  ghost predicate FirstYielding(page: Page, i: int) {
    SelectorYields(page, i) && forall k :: 0 <= k < i ==> !SelectorYields(page, k)
  }

  /** The og:image fallback has a non-empty `content`. */
  predicate OgImageYields(page: Page) {
    page.ogImage.Some? && Truthy(page.ogImage.value)
  }

  /** One strategy of the picture chain: the `src` of the first element
      that `sel` matches, when it is non-empty. */
  function SelectorSource(page: Page, sel: string): (r: Option<string>)
    ensures r.Some? <==> |Matched(page, sel)| > 0 && Truthy(Matched(page, sel)[0])
    ensures r.Some? ==> r == Matched(page, sel)[0]
  {
    var els := Matched(page, sel);
    if |els| > 0 && Truthy(els[0]) then els[0] else None
  }

  /** The last strategy of the picture chain: a non-empty og:image
      `content`; a missing element is a miss, not an error. */
  function OgImageSource(page: Page): (r: Option<string>)
    ensures r.Some? <==> OgImageYields(page)
    ensures r.Some? ==> r == page.ogImage.value
  {
    match page.ogImage
    case Some(content) => if Truthy(content) then content else None
    case None => None
  }

  /** The outcome of every picture strategy, in the order they are tried:
      one per selector, in list order, then og:image last. */
  function PictureCandidates(page: Page): (c: seq<Option<string>>)
    ensures |c| == |PictureSelectors| + 1
    ensures forall i :: 0 <= i < |PictureSelectors| ==> (c[i].Some? <==> SelectorYields(page, i))
    ensures forall i :: 0 <= i < |PictureSelectors| && SelectorYields(page, i) ==> c[i] == Matched(page, PictureSelectors[i])[0]
    ensures c[|PictureSelectors|] == OgImageSource(page)
  {
    seq(|PictureSelectors|, i requires 0 <= i < |PictureSelectors| => SelectorSource(page, PictureSelectors[i]))
      + [OgImageSource(page)]
  }

  /** `_get_profile_img_src`: the non-empty `src` of the first element of
      the first selector that yields; only when no selector yields, the
      og:image `content`; `None` only when every source is empty or
      missing. */
  function PictureSource(page: Page): (r: Option<string>)
    ensures r.Some? ==> r.value != []
    ensures forall i :: FirstYielding(page, i) ==> r == Matched(page, PictureSelectors[i])[0]
    ensures (forall i :: 0 <= i < |PictureSelectors| ==> !SelectorYields(page, i)) ==>
      (r.Some? <==> OgImageYields(page)) && (r.Some? ==> r == page.ogImage.value)
    ensures r.None? <==>
      (forall i :: 0 <= i < |PictureSelectors| ==> !SelectorYields(page, i)) && !OgImageYields(page)
  {
    var c := PictureCandidates(page);
    assert forall i :: 0 <= i < |PictureSelectors| ==>
      c[i] == SelectorSource(page, PictureSelectors[i]) && (c[i].Some? <==> SelectorYields(page, i));
    assert c[|PictureSelectors|] == OgImageSource(page);
    assert c == c[..|PictureSelectors|] + [OgImageSource(page)];
    FirstSomeAppend(c[..|PictureSelectors|], [OgImageSource(page)]);
    FirstSome(c)
  }

  /** Some selector yields exactly when a first yielding selector exists. */
  lemma FirstYieldingExists(page: Page, i: int)
    requires SelectorYields(page, i)
    ensures exists j :: FirstYielding(page, j)
  {
    var c := PictureCandidates(page);
    assert forall k :: 0 <= k < |PictureSelectors| ==> (c[k].Some? <==> SelectorYields(page, k));
    var j := FirstSomeIndex(c);
    assert c[i].Some?;
    assert FirstYielding(page, j);
  }

  /** Picture precedence: once a selector yields, the og:image tag is
      never consulted, whatever it holds. */
  lemma OgImageShadowed(page: Page, og: Option<Option<string>>, i: int)
    requires SelectorYields(page, i)
    ensures PictureSource(page.(ogImage := og)) == PictureSource(page)
  {
    var p := page.(ogImage := og);
    FirstYieldingExists(page, i);
    var j :| FirstYielding(page, j);
    assert forall k :: SelectorYields(p, k) <==> SelectorYields(page, k);
    assert FirstYielding(p, j);
  }

  // ----- the stats chain -----

  /** The followers and following texts a run records. */
  datatype Counts = Counts(followers: Option<string>, following: Option<string>)

  /** The fallback of the stats chain: both counts parsed independently
      from the meta description; a missing description element gives
      neither, a missing `content` is parsed as the empty text. */
  function DescriptionCounts(description: Option<Option<string>>): (r: Counts)
    ensures description.None? ==> r == Counts(None, None)
    ensures description == Some(None) ==> r == Counts(None, None)
    ensures forall c :: description == Some(Some(c)) ==>
      r.followers == MetaCount(c, Followers) && r.following == MetaCount(c, Following)
    ensures r.followers.Some? ==> ',' !in r.followers.value
    ensures r.following.Some? ==> ',' !in r.following.value
  {
    match description
    case None => Counts(None, None)
    case Some(content) =>
      var desc := content.GetOr("");
      Counts(MetaCount(desc, Followers), MetaCount(desc, Following))
  }

  /** `_get_follow_counts`: with at least two header buttons, the counts
      are read from the first two buttons with `num` and nothing else;
      otherwise from the meta description. */
  function FollowCounts(page: Page): (r: Counts)
    ensures |page.buttons| >= 2 ==>
      && (r.followers.Some? <==> HasDigitOrDot(page.buttons[0]))
      && (r.following.Some? <==> HasDigitOrDot(page.buttons[1]))
    ensures |page.buttons| < 2 && page.description.None? ==> r == Counts(None, None)
    ensures r.followers.Some? ==> ',' !in r.followers.value
    ensures r.following.Some? ==> ',' !in r.following.value
  {
    if |page.buttons| >= 2 then
      Counts(Num(Some(page.buttons[0])), Num(Some(page.buttons[1])))
    else
      DescriptionCounts(page.description)
  }

  /** Stats precedence: with two or more buttons the description is never
      consulted, even when the buttons hold no number, and buttons past
      the second are never read. */
  lemma ButtonsShadowDescription(page: Page, description: Option<Option<string>>, extra: seq<string>)
    requires |page.buttons| >= 2
    ensures FollowCounts(page) == Counts(Num(Some(page.buttons[0])), Num(Some(page.buttons[1])))
    ensures FollowCounts(page.(description := description)) == FollowCounts(page)
    ensures FollowCounts(page.(buttons := page.buttons[..2] + extra)) == FollowCounts(page)
  {
  }

  /** Stats fallback: with fewer than two buttons, which buttons there are
      does not matter; the counts are those of the description. */
  lemma DescriptionFallback(page: Page, buttons: seq<string>)
    requires |page.buttons| < 2 && |buttons| < 2
    ensures FollowCounts(page.(buttons := buttons)) == FollowCounts(page)
    ensures FollowCounts(page) == DescriptionCounts(page.description)
  {
  }
}

=== FILE: text.dfy ===
/** Character classes and scanning primitives over Python `str` values,
    modelled as `seq<char>`. Every extractor of the logger is built from
    these: the `[\d,.]` character class of its regular expressions, the
    `\s` class, `str.strip()` and `str.replace(",", "")`. */
module Text {

  /** `\d`, restricted to the ASCII digits. */
  predicate IsDigit(c: char) {
    '0' <= c <= '9'
  }

  /** The character class `[\d,.]` shared by all count extractors. */
  predicate IsCountChar(c: char) {
    IsDigit(c) || c == ',' || c == '.'
  }

  /** Python's notion of whitespace: `str.isspace()`, which is both what
      `\s` matches in a `str` pattern and what `str.strip()` removes. It
      takes in the ASCII whitespace `" \t\n\r\v\f"`, the four ASCII
      separators, and no character of a count, so a count run always
      ends before the whitespace that follows it. */
  predicate IsSpace(c: char): (b: bool)
    ensures c in " \t\n\r\U{B}\U{C}" ==> b
    ensures '\U{1C}' <= c <= '\U{1F}' ==> b
    ensures b ==> !IsCountChar(c)
  {
    || ('\t' <= c <= '\r')
    || ('\U{1C}' <= c <= '\U{1F}')
    || c == ' '
    || c == '\U{85}'
    || c == '\U{A0}'
    || c == '\U{1680}'
    || ('\U{2000}' <= c <= '\U{200A}')
    || c == '\U{2028}'
    || c == '\U{2029}'
    || c == '\U{202F}'
    || c == '\U{205F}'
    || c == '\U{3000}'
  }

  /** Every character of `t[i..j]` is in `[\d,.]`. */
  predicate AllCount(t: string, i: int, j: int) {
    0 <= i <= j <= |t| && forall m :: i <= m < j ==> IsCountChar(t[m])
  }

  /** No character of `t[i..j]` is in `[\d,.]`. */
  predicate NoCount(t: string, i: int, j: int) {
    0 <= i <= j <= |t| && forall m :: i <= m < j ==> !IsCountChar(t[m])
  }

  /** Every character of `t[i..j]` is whitespace. */
  predicate AllSpace(t: string, i: int, j: int) {
    0 <= i <= j <= |t| && forall m :: i <= m < j ==> IsSpace(t[m])
  }

  /** A string `strip()` leaves alone: it neither starts nor ends with whitespace. */
  predicate Unpadded(s: string) {
    s == [] || (!IsSpace(s[0]) && !IsSpace(s[|s| - 1]))
  }

  /** End of the maximal run of `[\d,.]` characters starting at `i`. */
  function RunEnd(t: string, i: nat): (j: nat)
    requires i <= |t|
    ensures i <= j <= |t|
    ensures AllCount(t, i, j)
    ensures j == |t| || !IsCountChar(t[j])
    decreases |t| - i
  {
    if i < |t| && IsCountChar(t[i]) then RunEnd(t, i + 1) else i
  }

  /** End of the maximal run of whitespace starting at `i`. */
  function SpaceEnd(t: string, i: nat): (j: nat)
    requires i <= |t|
    ensures i <= j <= |t|
    ensures AllSpace(t, i, j)
    ensures j == |t| || !IsSpace(t[j])
    decreases |t| - i
  {
    if i < |t| && IsSpace(t[i]) then SpaceEnd(t, i + 1) else i
  }

  /** Start of the maximal run of whitespace ending at `j`. */
  function SpaceStart(t: string, j: nat): (i: nat)
    requires j <= |t|
    ensures i <= j
    ensures AllSpace(t, i, j)
    ensures i == 0 || !IsSpace(t[i - 1])
    decreases j
  {
    if 0 < j && IsSpace(t[j - 1]) then SpaceStart(t, j - 1) else j
  }

  /** Position of the first `[\d,.]` character at or after `i`, or `|t|`. */
  function FirstCount(t: string, i: nat): (p: nat)
    requires i <= |t|
    ensures i <= p <= |t|
    ensures NoCount(t, i, p)
    ensures p == |t| || IsCountChar(t[p])
    decreases |t| - i
  {
    if i == |t| || IsCountChar(t[i]) then i else FirstCount(t, i + 1)
  }

  /** `s.replace(",", "")`. What it keeps, and in which order, is stated
      by `RemoveCommasMultiset` and `RemoveCommasAppend`. */
  function RemoveCommas(s: string): (r: string)
    ensures ',' !in r
    ensures |r| <= |s|
  {
    if s == [] then []
    else (if s[0] == ',' then [] else [s[0]]) + RemoveCommas(s[1..])
  }

  /** Removing commas keeps every other character, as often as it occurs:
      only the commas are lost. */
  lemma {:induction false} RemoveCommasMultiset(s: string)
    ensures multiset(RemoveCommas(s)) == multiset(s)[',' := 0]
    decreases |s|
  {
    if s != [] {
      RemoveCommasMultiset(s[1..]);
      assert s == [s[0]] + s[1..];
      assert multiset(s) == multiset{s[0]} + multiset(s[1..]);
    }
  }

  /** Removing commas keeps the order of the remaining characters: it
      distributes over concatenation. */
  lemma {:induction false} RemoveCommasAppend(a: string, b: string)
    ensures RemoveCommas(a + b) == RemoveCommas(a) + RemoveCommas(b)
    decreases |a|
  {
    if a == [] {
      assert a + b == b;
    } else {
      var h := if a[0] == ',' then [] else [a[0]];
      calc {
        RemoveCommas(a + b);
      == { assert (a + b)[0] == a[0]; assert (a + b)[1..] == a[1..] + b; }
        h + RemoveCommas(a[1..] + b);
      == { RemoveCommasAppend(a[1..], b); }
        h + (RemoveCommas(a[1..]) + RemoveCommas(b));
      ==
        (h + RemoveCommas(a[1..])) + RemoveCommas(b);
      ==
        RemoveCommas(a) + RemoveCommas(b);
      }
    }
  }

  /** A comma-free string is left unchanged. */
  lemma {:induction false} RemoveCommasNoop(s: string)
    requires ',' !in s
    ensures RemoveCommas(s) == s
    decreases |s|
  {
    if s != [] {
      assert ',' !in s[1..];
      RemoveCommasNoop(s[1..]);
      assert s == [s[0]] + s[1..];
    }
  }

  /** A character survives comma removal exactly when it is not a comma. */
  lemma RemoveCommasMembers(s: string, c: char)
    ensures c in RemoveCommas(s) <==> c in s && c != ','
  {
    var r := RemoveCommas(s);
    RemoveCommasMultiset(s);
    assert c in r <==> multiset(r)[c] > 0;
    assert c in s <==> multiset(s)[c] > 0;
  }

  /** `t` is `s` with whitespace-only text of length `i` cut from the
      front and whitespace-only text cut from the back. */
  ghost predicate StrippedAt(s: string, i: int, t: string) {
    && 0 <= i
    && i + |t| <= |s|
    && s[i..i + |t|] == t
    && AllSpace(s, 0, i)
    && AllSpace(s, i + |t|, |s|)
  }

  /** `s.strip()`: leading and trailing whitespace removed. */
  function Strip(s: string): (r: string)
    ensures Unpadded(r)
    ensures exists i :: StrippedAt(s, i, r)
  {
    var i := SpaceEnd(s, 0);
    var j := SpaceStart(s, |s|);
    if j <= i then
      assert StrippedAt(s, i, []);
      []
    else
      assert StrippedAt(s, i, s[i..j]);
      s[i..j]
  }

  /** `strip()` is the identity exactly on the strings that carry no
      surrounding whitespace. */
  lemma StripFixedPoint(s: string)
    ensures Strip(s) == s <==> Unpadded(s)
  {
    if Unpadded(s) && s != [] {
      var r := Strip(s);
      var i :| StrippedAt(s, i, r);
      assert !IsSpace(s[0]) && !IsSpace(s[|s| - 1]);
      assert i == 0 && i + |r| == |s|;
    }
  }
}

=== FILE: wrappers.dfy ===
/** The `Option` and `Result` types the model uses.
    `Option` stands for Python's `str | None`; `Result` for a call that
    either returns a value or raises. */
module Wrappers {

  datatype Option<+T> = None | Some(value: T) {

    /** The value, or `default` when there is none. */
    function GetOr(default: T): T {
      match this
      case Some(v) => v
      case None => default
    }
  }

  datatype Result<+T, +E> = Success(value: T) | Failure(error: E)
}
